=== FILE: README.md ===
# Product listing and review aggregation of a MERN storefront

This project models two pure-logic parts of the storefront's product controller
(`server/controllers/productController.js`) in Dafny and proves properties of them.
The product collection is an in-memory value, not a database.

- **Product listing** (`getAllProducts`). The query string supplies `category`, `size`,
  `color` and `filter`. A 27-branch first-match cascade (26 guarded branches plus the final
  `else`) turns them into one `Product.find({...}).sort({...})`. The tests on `category`,
  `size` and `color` use JavaScript truthiness, so an empty string counts as absent. The
  tests on `filter` are strict `===` comparisons against the four sort labels. The cascade is not a full cross-product of its inputs. Without
  `category`, a truthy `size` hides `color` and `filter`, and a truthy `color` hides
  `filter`. The products page sends `size`, `color` and `filter` and never `category`
  (`client/src/pages/Products.jsx:40`).
- **Review aggregation** (`createReview`, `updateReview`, `deleteReview`, plus the initial
  state set by `createProduct`). Each handler is a guarded change to one product's
  `reviews`. After the change it recomputes `rating` (the mean `userRating`) and
  `numReviews`. The proved invariant is that every product keeps
  `numReviews == |reviews|`, `rating == mean` (0 when there are no reviews) and at most
  one review per user. It holds after any sequence of requests. `updateReview` never
  reassigns `numReviews`, so after an update the count stays right only because authors
  are unique.

Modules:

- `Js`: the request-field `Option` type and JavaScript truthiness.
- `Catalog`: `Review`, `Product`, `User`; `Sum`/`Mean`; the `$pull` operation `Pull`;
  `findById`; the aggregate invariant `Valid`.
- `ProductCreation`: `createProduct`'s guards and the state a new product starts in.
- `ProductQuery`: the cascade `Resolve`, the intended `ResolveCompositional`, and
  matching, selection, sorting and listing.
- `ReviewHandlers`: the three review handlers, request replay, the invariant lemmas, and
  worked scenarios.

Modelling choices:

- The store is a `seq<Product>` in insertion order. The model assumes an unsorted
  `find()` returns documents in that order (its "natural order"); the store does not
  promise any order.
- `findById` is the first product with that id.
- Numbers are Dafny `real`s.
- The requester (`req.user`) is a parameter. So are the store-assigned id of a new
  product (required to be fresh, as a store-generated id is), the accepted image file name, and the numbers the schema casts a form's
  `price` and `countInStock` to.
- A rating is falsy when it is absent or 0. A string field is falsy when it is absent or
  `""`.
- `createProduct` reads a multipart form, so its fields are strings. A price of `"0"`
  is therefore present.
- The comment at `productController.js` line 67 says each branch handles a combination of queries. The code
  instead drops inputs by precedence. `Resolve` and `GetAllProducts` follow the code. The
  behaviour where every supplied predicate is applied, together with the sort, is
  `ResolveCompositional` / `ListProducts` (see Findings).

## Model

| member | source | states |
|---|---|---|
| ProductQuery.ParseFilter | server/controllers/productController.js:69-84 | A sort is selected only by one of the four exact labels. A "Price" label sorts on price and a "Rating" label on rating. "Highest to Lowest" gives direction -1 and "Lowest to Highest" gives +1. |
| ProductQuery.LabelRoundTrip | server/controllers/productController.js:140-155 | Each sort has its own label, and that label parses back to the same sort. |
| ProductQuery.Resolve | server/controllers/productController.js:61-156 | The whole cascade, described case by case. `category` is kept exactly when it is truthy. With `category`, every truthy predicate and the label's sort are kept. Without `category`: a truthy `size` gives exactly `{size}` with no sort; otherwise a truthy `color` gives exactly `{color}` with no sort; otherwise there are no predicates and only the label's sort. |
| ProductQuery.EmptyInputsMeanNoQuery | server/controllers/productController.js:137-156 | When all three predicates are absent or empty and `filter` is not a label, the query is a bare `find()` with no sort. |
| ProductQuery.ResolveUsesOnlySuppliedInputs | server/controllers/productController.js:69-155 | Every predicate in the query is a truthy input with that input's value. Any sort comes from the label `filter` equals. |
| ProductQuery.SortAloneOnlyWithoutPredicates | server/controllers/productController.js:137-155 | A sort with no predicates happens if and only if all three predicates are absent and `filter` is a valid label. |
| ProductQuery.CascadeAgreesWhenNothingDropped | server/controllers/productController.js:67-156 | The cascade equals the compositional query if and only if `category` is truthy, or at most one of `size`, `color` and a valid label is supplied. |
| ProductQuery.ResolveDropsColorAndSort | server/controllers/productController.js:138-139 | The as-written quirk: `size=M&color=Red&filter=Price (Lowest to Highest)` resolves to `{size: "M"}` with no sort. |
| ProductQuery.RedFilterListsBlueProduct | client/src/pages/Products.jsx:40 | The request the products page sends lists a blue size-M product when red was asked for. The intended listing excludes it. |
| ProductQuery.Select | server/controllers/productController.js:117-120 | `find(filter)` returns exactly the store products that satisfy every equality predicate, and no product more often than the store holds it. |
| ProductQuery.SelectCounts | server/controllers/productController.js:117-120 | `find(filter)` returns every copy of a matching product and no copy of any other. |
| ProductQuery.SelectAppend | server/controllers/productController.js:117-120 | A single document is selected exactly when it matches. Selecting from two stretches of the store and concatenating equals selecting from their concatenation, so the matches keep the store's order. |
| ProductQuery.SelectAll | server/controllers/productController.js:156 | `find()` with no predicate returns the whole store in natural order. |
| ProductQuery.Insert | server/controllers/productController.js:69-72 | Inserting into a listing sorted by the key keeps it sorted and adds exactly that product. |
| ProductQuery.SortProducts | server/controllers/productController.js:69-72 | `.sort({key: dir})` returns a permutation of its input, ordered by the key in that direction. |
| ProductQuery.Run | server/controllers/productController.js:69-156 | A query returns exactly the matching products. With no sort they come in natural order; with a sort, they come sorted by its key. |
| ProductQuery.GetAllProducts | server/controllers/productController.js:61-158 | The handler's listing. With `category`, exactly the products matching every truthy predicate are listed. Without it, only the `size` or else the `color` predicate filters the list, in natural order. With no predicates, the list is a permutation of the whole store, and exactly the store when there is no label. The list is sorted only when `category` is truthy, or when none of the three predicates is. In every case it holds each product as often as the issued query's `find` does, and equals that `find` when no sort is issued. |
| ProductQuery.ResolveCompositional | server/controllers/productController.js:67 | The intended query has one predicate for each truthy input, with that input's value, and the sort exactly when `filter` is a label. |
| ProductQuery.ListProducts | server/controllers/productController.js:67-156 | The intended listing is exactly the products matching every supplied predicate, each as often as `find` returns it. It is sorted whenever `filter` is a valid label; without a label it is the `find` result in natural order. |
| ProductQuery.MatchesIsConjunction | server/controllers/productController.js:117-120 | A filter object is the conjunction of its fields: a product matches it exactly when it matches each single-field filter. An empty filter matches every product, and the sort never filters. |
| Catalog.Pull | server/controllers/productController.js:259-264 | `$pull` keeps exactly the reviews not written by the user and leaves none by them. |
| Catalog.PullAppend | server/controllers/productController.js:259-264 | On any list, `$pull` keeps a single review exactly when the user did not write it, and pulling from two stretches one after the other equals pulling from their concatenation. So the kept reviews stay in their original order, with every copy. |
| Catalog.PullAbsent | server/controllers/productController.js:298-303 | `$pull` changes nothing when the user has no review. |
| Catalog.PullRemovesOne | server/controllers/productController.js:254-264 | When authors are unique, `$pull` removes exactly the user's one review at its position, and the others keep their order. |
| Catalog.PullKeepsUnique | server/controllers/productController.js:298-303 | `$pull` keeps authors unique. |
| Catalog.SumAppend | server/controllers/productController.js:230-233 | Pushing a review adds its rating to the `reduce` total. |
| Catalog.SumFromFront | server/controllers/productController.js:231-233 | The `reduce` total of a non-empty list is its first rating plus the total of the rest. |
| Catalog.Mean | server/controllers/productController.js:231-233 | `rating` times the number of reviews is the `reduce` total, and `rating` is 0 when there are no reviews. |
| Catalog.FindReview | server/controllers/productController.js:218 | `reviews.find(r => r.userId === user.id)` returns a review exactly when the user has one. What it returns is one of the list's reviews by that user, and the first one when the list starts with one. |
| Catalog.FindReviewIsFirst | server/controllers/productController.js:218 | `find` returns the first review by the user: the review at any position before which no review is by that user. |
| Catalog.CountBy | server/controllers/productController.js:254-264 | The number of the user's reviews is at most the list length, and it is positive exactly when the user has a review. |
| Catalog.PullCount | server/controllers/productController.js:259-264 | `$pull` shortens the list by exactly the number of the user's reviews. |
| Catalog.SumBounds | server/controllers/productController.js:231-233 | The total of ratings that all lie in `[lo, hi]` lies between `n*lo` and `n*hi`. |
| Catalog.MeanBounds | server/controllers/productController.js:231-233 | The recomputed `rating` stays within any bounds that every review rating respects. |
| Catalog.FindById | server/controllers/productController.js:215-216 | `findById` returns the first product with the id, and returns nothing when no product has it. |
| ProductCreation.CreateProduct | server/controllers/productController.js:5-43 | Guards are checked in order: 409 when the name is already taken, then 400 when a required field is falsy. A refused request leaves the store unchanged. On success, the product is appended with the new id and the form's name, description, category, size and colour, the given price, stock and image, no reviews, `rating` 0 and `numReviews` 0. It satisfies the invariant, and `findById` on the new id finds it. |
| ProductCreation.FindByIdAppend | server/controllers/productController.js:31-43 | Appending a product whose id no stored product has makes `findById` on that id return the appended product. |
| ProductCreation.ScenarioCreateThenDuplicate | server/controllers/productController.js:5-43 | A complete form on an empty store answers 201, and the product is found under its new id. The same form again answers 409, and a form with an empty description answers 400; neither changes the store. |
| ReviewHandlers.NewReview | server/controllers/productController.js:223-228 | The review built from a request carries the name "first last", the requester's id, and exactly the supplied rating and text, which are both truthy. |
| ReviewHandlers.CreateReview | server/controllers/productController.js:212-243 | Guards are checked in order: 404, then 409 if the requester already has a review, then 400 if the rating or text is falsy (a rating of 0 counts as missing). A refused request changes nothing. On success, exactly the review `{first last, id, rating, text}` is appended to that product and nothing else changes. `numReviews` becomes the new length and `rating` the new mean. The response carries that last review and the new aggregates. |
| ReviewHandlers.UpdateReview | server/controllers/productController.js:248-286 | Guards are checked in order: 404, then 409 if the requester has no review, then 400. On success the reviews become the pulled list plus the new review at the end, and `rating` becomes the new mean. `numReviews` keeps its old value, and nothing else changes. |
| ReviewHandlers.DeleteReview | server/controllers/productController.js:291-314 | Guards are checked in order: 404, then 409 if the requester has no review. On success the reviews become the pulled list and `numReviews` its length. `rating` becomes the mean of what remains, or 0 when nothing remains. |
| ReviewHandlers.PullOfAuthorRemovesOne | server/controllers/productController.js:254-264 | When authors are unique, pulling a user who has a review shortens the list by exactly one. |
| ReviewHandlers.AppendNewAuthorKeepsUnique | server/controllers/productController.js:218-230 | The 409 guard makes the push keep one review per user. |
| ReviewHandlers.CreatePreservesValid | server/controllers/productController.js:212-234 | `createReview` keeps every product's count, mean and uniqueness invariant. |
| ReviewHandlers.UpdatePreservesValid | server/controllers/productController.js:254-277 | `updateReview` keeps the invariant. The count it never reassigns stays right because of uniqueness. |
| ReviewHandlers.DeletePreservesValid | server/controllers/productController.js:295-310 | `deleteReview` keeps the invariant. |
| ReviewHandlers.UpdateCountNeedsUniqueness | server/controllers/productController.js:275-277 | Without uniqueness, the count goes stale. A product with two reviews by one user keeps `numReviews == 2` after that user's update leaves one review. |
| ReviewHandlers.UpdateCountRightIffOneReview | server/controllers/productController.js:254-277 | For every store, an accepted update leaves `numReviews` equal to the number of reviews if and only if the requester had exactly one review. With two or more, the count goes stale. |
| ReviewHandlers.ReplayPreservesValid | server/controllers/productController.js:212-315 | Any sequence of create, update and delete requests, accepted or refused, keeps the invariant on every product. |
| ReviewHandlers.CreatedProductStaysValid | server/controllers/productController.js:31-43 | A newly created product, reviewed any number of times afterwards, keeps the invariant. |
| ReviewHandlers.ScenarioFirstReview | server/controllers/productController.js:223-243 | A first review of 4 gives `rating` 4 and `numReviews` 1, under the name "first last". |
| ReviewHandlers.ScenarioUpdate | server/controllers/productController.js:259-286 | Reviews 4 (u1) and 2 (u2); u1 updates to 5. The result is `rating` 3.5 and `numReviews` 2, with u1's review moved to the end. |
| ReviewHandlers.ScenarioDelete | server/controllers/productController.js:298-310 | u2 then deletes their review: `rating` 5 and `numReviews` 1. |
| ReviewHandlers.ScenarioDeleteWithoutReview | server/controllers/productController.js:295-296 | Deleting a review that was never written answers 409 and changes nothing. |
| ReviewHandlers.ScenarioDuplicateReview | server/controllers/productController.js:218-221 | A second review by the same user answers 409 even when the rating is also missing, and changes nothing. |

## Findings

| source | as written | input that shows it | evidently intended | confidence | as-written member | corrected member |
|---|---|---|---|---|---|---|
| server/controllers/productController.js:138-139 | Without `category`, `else if (size) find({size})` and `else if (color) find({color})` ignore the other predicate and `filter`. | `?size=M&color=Red&filter=Price (Lowest to Highest)`, which is what the products page sends (`client/src/pages/Products.jsx:40`). It lists size-M products of every colour, unsorted. | Apply every supplied predicate, plus the sort (the comment on line 67 says each branch handles a combination of queries). | medium; not executed | ProductQuery.ResolveDropsColorAndSort | ProductQuery.ListProducts |

## Left out

- Express and Mongoose plumbing is not modelled: `asyncHandler`, the response messages, and the store calls. Store calls are plain reads and writes of the product sequence. Status codes are datatype cases.
- A store call that fails, such as on a lost connection, is not modelled: no store call can fail here.
- The order of an unsorted `find()` is unspecified by the store. The model fixes it to insertion order, so the "natural order" promises of `ProductQuery.SelectAll`, `ProductQuery.Run`, `ProductQuery.GetAllProducts` and `ProductQuery.ListProducts` hold only under that assumption.
- `updateReview` and `deleteReview` run as two round trips: `$pull`, then a re-read. This is a concurrency concern, so each handler is modelled as one sequential step.
- Floating-point division and NaN are not modelled. Ratings are exact reals, and `NaN || 0` is modelled as 0 for an empty list.
- The 400 branch of `createProduct` for a falsy result of `Product.create` (lines 48-49) is left out: `create` resolves with the document or throws. So are the 400 branches for a falsy result of `save()` in `createReview` and `updateReview` (lines 238-244, 281-287), for the same reason.
- Query values that are arrays (`?size=M&size=L`) or objects (`?color[$ne]=Red`) are not modelled. Express parses them from the query string; they are truthy and reach `find` as `$in`-like or operator conditions, which the equality-only `Matches` cannot express. Every query value here is a string or absent.
- Parts of `createProduct` are left out because they are upload and authorisation plumbing: the image mimetype whitelist (line 25's rejection does not return), the image-required check, and the admin check that runs after the product is created (line 45). The image file name is a parameter.
- ProductCreation.CreateProduct: an absent `name` is modelled as a lookup that finds nothing. How the store treats `findOne({name: undefined})` is not modelled.
- ProductCreation.CreateProduct: `price` and `countInStock` are passed in as numbers. The schema casting them from the form's strings is not part of this model.
- `getOneProduct`, `updateProduct` and `deleteProduct` are administrative handlers outside the two modelled parts.
- `updatedAt` timestamps come from the schema, which is not part of this model.
- ProductQuery.Run: among products with equal sort keys, the store promises no order, so the contract states only sortedness and the set of products. The body happens to keep natural order.
- Review ids are assumed to be stored as the same string as `req.user.id`, which the guards compare with `===`. The schema is not part of this model.
- A `userRating` that arrives as a string is not modelled. In that case the JavaScript `reduce` would concatenate instead of adding.
- The React pages (`Products.jsx`, `Review.jsx`) are UI and are not modelled. `Products.jsx` line 40 is used only to choose the inputs in the Findings row.

=== FILE: catalog.dfy ===
/**
  The Product document and the Review values it owns, with the derived
  aggregate fields `rating` and `numReviews`.

  A product store is a sequence of products in insertion order. The model
  assumes an unsorted `Product.find()` returns them in that order; the
  store itself leaves that order unspecified.
 */
module Catalog {
  import opened Js

  /** One entry of `Product.reviews`. */
  datatype Review = Review(userName: string, userId: string, userRating: real, userReview: string)

  /** A Product document. `rating` and `numReviews` are derived from `reviews`. */
  datatype Product = Product(
    id: string,
    name: string,
    desc: string,
    price: real,
    image: string,
    category: string,
    size: string,
    color: string,
    countInStock: int,
    rating: real,
    numReviews: int,
    reviews: seq<Review>)

  /** The authenticated requester, as the auth middleware supplies it. */
  datatype User = User(id: string, firstName: string, lastName: string)

  /** The display name snapshot written into a review: `${firstName} ${lastName}`. */
  function DisplayName(u: User): string
  {
    u.firstName + " " + u.lastName
  }

  /** `reviews.reduce((a, b) => b.userRating + a, 0)`: a left fold, so the
      last review is added last. */
  function Sum(rs: seq<Review>): real
  {
    if |rs| == 0 then 0.0 else Sum(rs[..|rs| - 1]) + rs[|rs| - 1].userRating
  }

  /** The left fold equals the total taken from the front: the order in
      which `reduce` adds the ratings does not matter. */
  lemma {:induction false} SumFromFront(rs: seq<Review>)
    requires |rs| > 0
    ensures Sum(rs) == rs[0].userRating + Sum(rs[1..])
  {
    if |rs| > 1 {
      var init := rs[..|rs| - 1];
      assert rs[1..][..|rs| - 2] == init[1..];
      SumFromFront(init);
    } else {
      assert rs[..0] == [] && rs[1..] == [];
    }
  }

  /** The mean rating of a review list, 0 when the list is empty (the
      `NaN || 0` of `deleteReview`). */
  function Mean(rs: seq<Review>): (r: real)
    ensures r * (|rs| as real) == Sum(rs)
    ensures |rs| == 0 ==> r == 0.0
  {
    if |rs| == 0 then 0.0 else Sum(rs) / (|rs| as real)
  }

  /** Some entry of the list was written by `uid`. */
  predicate HasReviewBy(rs: seq<Review>, uid: string)
  {
    exists i :: 0 <= i < |rs| && rs[i].userId == uid
  }

  /** `reviews.find(user => user.userId === uid)`: the first review by
      `uid`, or `undefined`. A review object is always truthy, so the
      guards test only whether one was found. */
  function FindReview(rs: seq<Review>, uid: string): (r: Option<Review>)
    ensures r.Some? <==> HasReviewBy(rs, uid)
    ensures r.Some? ==> r.value in rs && r.value.userId == uid
    ensures r.Some? && rs[0].userId == uid ==> r.value == rs[0]
  {
    if |rs| == 0 then None
    else if rs[0].userId == uid then Some(rs[0])
    else
      var r := FindReview(rs[1..], uid);
      assert HasReviewBy(rs[1..], uid) ==> HasReviewBy(rs, uid) by {
        if HasReviewBy(rs[1..], uid) {
          var k :| 0 <= k < |rs[1..]| && rs[1..][k].userId == uid;
          assert rs[k + 1] == rs[1..][k];
        }
      }
      assert HasReviewBy(rs, uid) ==> HasReviewBy(rs[1..], uid) by {
        if HasReviewBy(rs, uid) {
          var k :| 0 <= k < |rs| && rs[k].userId == uid;
          assert k > 0 && rs[1..][k - 1] == rs[k];
        }
      }
      r
  }

  /** `find` returns the FIRST review by `uid`: the one at the position
      before which no review is by `uid`. */
  lemma {:induction false} FindReviewIsFirst(rs: seq<Review>, uid: string, k: nat)
    requires k < |rs| && rs[k].userId == uid
    requires forall j :: 0 <= j < k ==> rs[j].userId != uid
    ensures FindReview(rs, uid) == Some(rs[k])
  {
    if k > 0 {
      assert rs[0].userId != uid;
      forall j | 0 <= j < k - 1 ensures rs[1..][j].userId != uid {
        assert rs[1..][j] == rs[j + 1];
      }
      FindReviewIsFirst(rs[1..], uid, k - 1);
    }
  }

  /** How many reviews `uid` has written. */
  function CountBy(rs: seq<Review>, uid: string): (n: nat)
    ensures n <= |rs|
    ensures n > 0 <==> HasReviewBy(rs, uid)
  {
    if |rs| == 0 then 0
    else
      assert HasReviewBy(rs, uid) <==> rs[0].userId == uid || HasReviewBy(rs[1..], uid) by {
        if HasReviewBy(rs[1..], uid) {
          var k :| 0 <= k < |rs[1..]| && rs[1..][k].userId == uid;
          assert rs[k + 1] == rs[1..][k];
        }
        if HasReviewBy(rs, uid) && rs[0].userId != uid {
          var k :| 0 <= k < |rs| && rs[k].userId == uid;
          assert k > 0 && rs[1..][k - 1] == rs[k];
        }
      }
      (if rs[0].userId == uid then 1 else 0) + CountBy(rs[1..], uid)
  }

  /** At most one review per user. */
  predicate UniqueAuthors(rs: seq<Review>)
  {
    forall i, j :: 0 <= i < j < |rs| ==> rs[i].userId != rs[j].userId
  }

  /** The aggregate invariant every product is meant to keep. */
  predicate Valid(p: Product)
  {
    && p.numReviews == |p.reviews|
    && p.rating == Mean(p.reviews)
    && UniqueAuthors(p.reviews)
  }

  /** `q` differs from `p` at most in its review fields. */
  predicate SameListing(p: Product, q: Product)
  {
    p.(rating := q.rating, numReviews := q.numReviews, reviews := q.reviews) == q
  }

  /** `$pull: {reviews: {userId: uid}}`: drop every review written by `uid`
      and keep the others in their original order. */
  function Pull(rs: seq<Review>, uid: string): (r: seq<Review>)
    ensures forall x {:trigger x in r} :: x in r <==> x in rs && x.userId != uid
    ensures !HasReviewBy(r, uid)
    ensures |r| <= |rs|
  {
    if |rs| == 0 then []
    else if rs[0].userId == uid then Pull(rs[1..], uid)
    else [rs[0]] + Pull(rs[1..], uid)
  }

  /** Concatenation is associative. */
  lemma ConcatAssoc<T>(x: seq<T>, y: seq<T>, z: seq<T>)
    ensures x + (y + z) == (x + y) + z
  {
  }

  /** `$pull` works review by review, on any list: a single review is
      kept exactly when `uid` did not write it, and pulling from two
      stretches one after the other is pulling from their concatenation,
      so the kept reviews stay in their original order with every copy. */
  lemma {:induction false} PullAppend(a: seq<Review>, b: seq<Review>, uid: string)
    ensures |a| == 1 ==> Pull(a, uid) == if a[0].userId == uid then [] else a
    ensures Pull(a + b, uid) == Pull(a, uid) + Pull(b, uid)
  {
    if |a| > 0 {
      var head := if a[0].userId == uid then [] else [a[0]];
      assert (a + b)[1..] == a[1..] + b;
      assert (a + b)[0] == a[0];
      assert Pull(a + b, uid) == head + Pull(a[1..] + b, uid);
      assert Pull(a, uid) == head + Pull(a[1..], uid);
      PullAppend(a[1..], b, uid);
      ConcatAssoc(head, Pull(a[1..], uid), Pull(b, uid));
      if |a| == 1 {
        assert a[1..] == [];
        assert a == [a[0]];
      }
    } else {
      assert a + b == b;
    }
  }

  /** `$pull` removes nothing when `uid` has no review. */
  lemma {:induction false} PullAbsent(rs: seq<Review>, uid: string)
    requires !HasReviewBy(rs, uid)
    ensures Pull(rs, uid) == rs
  {
    if |rs| > 0 {
      assert !HasReviewBy(rs[1..], uid) by {
        forall i | 0 <= i < |rs[1..]| ensures rs[1..][i].userId != uid {
          assert rs[1..][i] == rs[i + 1];
        }
      }
      PullAbsent(rs[1..], uid);
      assert rs[0].userId != uid;
      assert rs == [rs[0]] + rs[1..];
    }
  }

  /** `$pull` removes exactly as many reviews as `uid` has written. */
  lemma {:induction false} PullCount(rs: seq<Review>, uid: string)
    ensures |Pull(rs, uid)| == |rs| - CountBy(rs, uid)
  {
    if |rs| > 0 {
      PullCount(rs[1..], uid);
    }
  }

  /** Dropping the first review keeps authors unique, and the first
      author has no review left in the rest. */
  lemma UniqueTail(rs: seq<Review>)
    requires |rs| > 0 && UniqueAuthors(rs)
    ensures UniqueAuthors(rs[1..])
    ensures !HasReviewBy(rs[1..], rs[0].userId)
  {
  }

  /** Putting a review in front of a list without its author keeps authors unique. */
  lemma UniqueCons(x: Review, rs: seq<Review>)
    requires UniqueAuthors(rs) && !HasReviewBy(rs, x.userId)
    ensures UniqueAuthors([x] + rs)
  {
  }

  /** `$pull` does not bring back an author who had no review. */
  lemma PullKeepsAbsent(rs: seq<Review>, uid: string, v: string)
    requires !HasReviewBy(rs, v)
    ensures !HasReviewBy(Pull(rs, uid), v)
  {
  }

  /** One step of `$pull` on a list that starts with a review by someone else. */
  lemma PullSkipsOther(rs: seq<Review>, uid: string)
    requires |rs| > 0 && rs[0].userId != uid
    ensures Pull(rs, uid) == [rs[0]] + Pull(rs[1..], uid)
  {
  }

  /** Cutting position `k` out of the tail and putting the head back
      cuts position `k` out of the whole list. */
  lemma SpliceAfterHead(rs: seq<Review>, k: nat)
    requires 0 < k < |rs|
    ensures [rs[0]] + (rs[1..][..k - 1] + rs[1..][k..]) == rs[..k] + rs[k + 1..]
  {
    assert [rs[0]] + rs[1..][..k - 1] == rs[..k];
    assert rs[1..][k..] == rs[k + 1..];
  }

  /** When authors are unique, `$pull` removes exactly the one review of
      `uid` and leaves every other review where it was relative to the rest. */
  lemma {:induction false} PullRemovesOne(rs: seq<Review>, uid: string, k: nat)
    requires UniqueAuthors(rs)
    requires k < |rs| && rs[k].userId == uid
    ensures Pull(rs, uid) == rs[..k] + rs[k + 1..]
    ensures |Pull(rs, uid)| == |rs| - 1
  {
    var tail := rs[1..];
    UniqueTail(rs);
    if k == 0 {
      PullAbsent(tail, uid);
      assert rs[..0] + rs[1..] == tail;
    } else {
      assert tail[k - 1] == rs[k];
      PullRemovesOne(tail, uid, k - 1);
      PullSkipsOther(rs, uid);
      SpliceAfterHead(rs, k);
    }
  }

  /** `$pull` never creates two reviews by the same user. */
  lemma {:induction false} PullKeepsUnique(rs: seq<Review>, uid: string)
    requires UniqueAuthors(rs)
    ensures UniqueAuthors(Pull(rs, uid))
  {
    if |rs| > 0 {
      var tail := rs[1..];
      UniqueTail(rs);
      PullKeepsUnique(tail, uid);
      if rs[0].userId != uid {
        PullKeepsAbsent(tail, uid, rs[0].userId);
        UniqueCons(rs[0], Pull(tail, uid));
      }
    }
  }

  /** Appending one rating adds it to the running total. */
  lemma SumAppend(rs: seq<Review>, x: Review)
    ensures Sum(rs + [x]) == Sum(rs) + x.userRating
  {
  }

  /** Ratings that all lie in `[lo, hi]` have a total within `[n*lo, n*hi]`. */
  lemma {:induction false} SumBounds(rs: seq<Review>, lo: real, hi: real)
    requires forall i :: 0 <= i < |rs| ==> lo <= rs[i].userRating <= hi
    ensures (|rs| as real) * lo <= Sum(rs) <= (|rs| as real) * hi
  {
    if |rs| > 0 {
      var init := rs[..|rs| - 1];
      var n := |init| as real;
      assert forall i :: 0 <= i < |init| ==> init[i] == rs[i];
      SumBounds(init, lo, hi);
      assert Sum(rs) == Sum(init) + rs[|rs| - 1].userRating;
      assert (|rs| as real) * lo == n * lo + lo;
      assert (|rs| as real) * hi == n * hi + hi;
    }
  }

  /** The mean of ratings within `[lo, hi]` stays within `[lo, hi]`: a
      product whose reviews rate 1 to 5 shows a rating from 1 to 5. */
  lemma MeanBounds(rs: seq<Review>, lo: real, hi: real)
    requires |rs| > 0
    requires forall i :: 0 <= i < |rs| ==> lo <= rs[i].userRating <= hi
    ensures lo <= Mean(rs) <= hi
  {
    SumBounds(rs, lo, hi);
    var n := |rs| as real;
    assert Mean(rs) * n == Sum(rs);
  }

  /** `Product.findById(id)`: the position of the product with that id. */
  function FindById(store: seq<Product>, id: string): (r: Option<nat>)
    ensures r.Some? ==> r.value < |store| && store[r.value].id == id
    ensures r.Some? ==> forall j :: 0 <= j < r.value ==> store[j].id != id
    ensures r.None? ==> forall j :: 0 <= j < |store| ==> store[j].id != id
  {
    if |store| == 0 then None
    else if store[0].id == id then Some(0)
    else
      match FindById(store[1..], id)
      case None => None
      case Some(k) => Some(k + 1)
  }

  /** Every product of the store keeps the aggregate invariant. */
  predicate AllValid(store: seq<Product>)
  {
    forall i :: 0 <= i < |store| ==> Valid(store[i])
  }
}

=== FILE: js.dfy ===
/**
  JavaScript values as the product controller receives them.

  A field of a request body or of a query string is either absent
  (`undefined`) or present. The controller tests fields with JavaScript
  truthiness (`if (category && ...)`, `if (!userRating || ...)`), so the
  empty string and the number 0 behave exactly like an absent field.
 */
module Js {

  /** A possibly absent request field. */
  datatype Option<+T> = None | Some(value: T)

  /** `!!s` for a string field: `undefined` and `""` are falsy. */
  predicate TruthyString(s: Option<string>)
  {
    s.Some? && s.value != ""
  }

  /** `!!x` for a numeric field: `undefined`, `null` and `0` are falsy.
      (NaN, also falsy in JavaScript, has no counterpart among reals.) */
  predicate TruthyNumber(x: Option<real>)
  {
    x.Some? && x.value != 0.0
  }

  /** The string a truthy field carries, and `None` for a falsy one: the
      value a Mongo filter object receives for a field that is supplied. */
  function Present(s: Option<string>): (r: Option<string>)
    ensures r.Some? <==> TruthyString(s)
    ensures r.Some? ==> s == r && r.value != ""
  {
    if TruthyString(s) then s else None
  }
}

=== FILE: product_creation.dfy ===
/**
  `createProduct`: the duplicate-name guard, the required-field guard and
  the aggregate state a new product starts in.

  The body arrives as a multipart form, so every field is a string and a
  field is missing when it is absent or empty ("0" is a present price).
  The numbers the schema casts `price` and `countInStock` to, the
  accepted image file name and the store-assigned id are parameters; the
  store assigns an id no stored product has.
 */
module ProductCreation {
  import opened Js
  import opened Catalog

  /** The fields `createProduct` reads from the request body. */
  datatype ProductForm = ProductForm(
    name: Option<string>,
    desc: Option<string>,
    price: Option<string>,
    category: Option<string>,
    size: Option<string>,
    color: Option<string>,
    countInStock: Option<string>)

  datatype CreateOutcome =
    | ProductExists          // 409 'Product already exists'
    | MissingFields          // 400 '... required'
    | Created(product: Product)  // 201

  datatype CreateReply = CreateReply(outcome: CreateOutcome, store: seq<Product>)

  function StatusCode(o: CreateOutcome): int
  {
    match o
    case ProductExists => 409
    case MissingFields => 400
    case Created(_) => 201
  }

  /** `Product.findOne({name})` finds a product. */
  predicate NameTaken(store: seq<Product>, name: Option<string>)
  {
    name.Some? && exists j :: 0 <= j < |store| && store[j].name == name.value
  }

  /** Every field the 400 guard tests is truthy. */
  predicate AllSupplied(f: ProductForm)
  {
    && TruthyString(f.name) && TruthyString(f.desc) && TruthyString(f.price)
    && TruthyString(f.category) && TruthyString(f.size) && TruthyString(f.color)
    && TruthyString(f.countInStock)
  }

  /** Guards in source order, then `Product.create` with no reviews, a
      rating of 0 and a review count of 0. */
  function CreateProduct(store: seq<Product>, form: ProductForm, newId: string, price: real, countInStock: int, image: string): (r: CreateReply)
    requires FindById(store, newId).None?
    ensures r.outcome.ProductExists? <==> NameTaken(store, form.name)
    ensures r.outcome.MissingFields? <==> !NameTaken(store, form.name) && !AllSupplied(form)
    ensures !r.outcome.Created? ==> r.store == store
    ensures r.outcome.Created? ==>
      && r.store == store + [r.outcome.product]
      && r.outcome.product.id == newId
      && Some(r.outcome.product.name) == form.name
      && Some(r.outcome.product.desc) == form.desc
      && r.outcome.product.image == image
      && Some(r.outcome.product.category) == form.category
      && Some(r.outcome.product.size) == form.size
      && Some(r.outcome.product.color) == form.color
      && r.outcome.product.price == price
      && r.outcome.product.countInStock == countInStock
      && r.outcome.product.reviews == []
      && r.outcome.product.rating == 0.0
      && r.outcome.product.numReviews == 0
      && Valid(r.outcome.product)
      && FindById(r.store, newId) == Some(|store|)
  {
    if NameTaken(store, form.name) then CreateReply(ProductExists, store)
    else if !AllSupplied(form) then CreateReply(MissingFields, store)
    else
      var p := Product(newId, form.name.value, form.desc.value, price, image,
                       form.category.value, form.size.value, form.color.value, countInStock,
                       0.0, 0, []);
      FindByIdAppend(store, p);
      CreateReply(Created(p), store + [p])
  }

  /** Creating "Tee" in an empty store answers 201 with a product that is
      found under its new id; sending the same form again answers 409,
      and an incomplete form answers 400; neither changes the store. */
  lemma ScenarioCreateThenDuplicate()
    ensures var form := ProductForm(Some("Tee"), Some("Cotton"), Some("0"), Some("Shirts"), Some("M"), Some("Red"), Some("3"));
      var first := CreateProduct([], form, "p1", 0.0, 3, "tee.png");
      var again := CreateProduct(first.store, form, "p2", 0.0, 3, "tee.png");
      var partial := CreateProduct([], form.(desc := Some("")), "p1", 0.0, 3, "tee.png");
      && StatusCode(first.outcome) == 201
      && FindById(first.store, "p1") == Some(0)
      && StatusCode(again.outcome) == 409 && again.store == first.store
      && StatusCode(partial.outcome) == 400 && partial.store == []
  {
    var form := ProductForm(Some("Tee"), Some("Cotton"), Some("0"), Some("Shirts"), Some("M"), Some("Red"), Some("3"));
    var first := CreateProduct([], form, "p1", 0.0, 3, "tee.png");
    assert first.store[0].name == "Tee";
    assert NameTaken(first.store, form.name);
  }

  /** A product appended under an id no stored product has is what
      `findById` returns for that id. */
  lemma {:induction false} FindByIdAppend(store: seq<Product>, p: Product)
    requires FindById(store, p.id).None?
    ensures FindById(store + [p], p.id) == Some(|store|)
  {
    if |store| > 0 {
      assert (store + [p])[1..] == store[1..] + [p];
      FindByIdAppend(store[1..], p);
    }
  }
}

=== FILE: product_query.dfy ===
/**
  Product listing: how `getAllProducts` turns the query-string values
  `category`, `size`, `color` and `filter` into a store query, and what
  that query returns.

  `Resolve` is the first-match cascade the controller uses. It is not a
  full cross-product of its inputs: without `category`, a truthy `size`
  hides `color` and `filter`, and a truthy `color` hides `filter`.
  `ResolveCompositional` is the query the cascade is evidently meant to
  build: every supplied predicate, plus the sort when the label is valid.
 */
module ProductQuery {
  import opened Js
  import opened Catalog

  /** The numeric field `.sort({...})` orders by. */
  datatype SortKey = PriceKey | RatingKey

  /** MongoDB's sort direction: -1 for descending, 1 for ascending. */
  type Direction = d: int | d == -1 || d == 1 witness 1

  datatype Sort = Sort(key: SortKey, direction: Direction)

  /** `Product.find({...}).sort({...})`: an equality predicate per field
      that appears in the filter object, and an optional sort. */
  datatype Query = Query(category: Option<string>, size: Option<string>, color: Option<string>, sort: Option<Sort>)

  /** The four sort labels the controller compares `filter` against. */
  const PriceDesc := "Price (Highest to Lowest)"
  const PriceAsc := "Price (Lowest to Highest)"
  const RatingDesc := "Rating (Highest to Lowest)"
  const RatingAsc := "Rating (Lowest to Highest)"

  /** The label that selects a sort. */
  function Label(s: Sort): string
  {
    match s.key
    case PriceKey => if s.direction == -1 then PriceDesc else PriceAsc
    case RatingKey => if s.direction == -1 then RatingDesc else RatingAsc
  }

  /** The sort a `filter` value selects (`filter === '...'`): only one of
      the four exact labels selects one. */
  function ParseFilter(filter: Option<string>): (r: Option<Sort>)
    ensures r.Some? <==> filter in {Some(PriceDesc), Some(PriceAsc), Some(RatingDesc), Some(RatingAsc)}
    ensures r.Some? ==> filter == Some(Label(r.value))
    ensures r.Some? ==> (r.value.key == PriceKey <==> filter.value in {PriceDesc, PriceAsc})
    ensures r.Some? ==> (r.value.direction == -1 <==> filter.value in {PriceDesc, RatingDesc})
  {
    if filter == Some(PriceDesc) then Some(Sort(PriceKey, -1))
    else if filter == Some(PriceAsc) then Some(Sort(PriceKey, 1))
    else if filter == Some(RatingDesc) then Some(Sort(RatingKey, -1))
    else if filter == Some(RatingAsc) then Some(Sort(RatingKey, 1))
    else None
  }

  /** Each sort has its own label, and the label selects that sort again. */
  lemma LabelRoundTrip(s: Sort)
    ensures ParseFilter(Some(Label(s))) == Some(s)
    ensures forall t: Sort :: Label(t) == Label(s) ==> t == s
  {
  }

  /** The query `getAllProducts` issues: its 27-branch first-match cascade
      over the truthiness of `category`, `size` and `color` and the exact
      value of `filter`. Each branch passes the supplied values themselves
      to `find`. */
  function Resolve(category: Option<string>, size: Option<string>, color: Option<string>, filter: Option<string>): (r: Query)
    ensures r.category == Present(category)
    ensures TruthyString(category) ==>
      r == Query(Present(category), Present(size), Present(color), ParseFilter(filter))
    ensures !TruthyString(category) && TruthyString(size) ==>
      r == Query(None, Present(size), None, None)
    ensures !TruthyString(category) && !TruthyString(size) && TruthyString(color) ==>
      r == Query(None, None, Present(color), None)
    ensures !TruthyString(category) && !TruthyString(size) && !TruthyString(color) ==>
      r == Query(None, None, None, ParseFilter(filter))
  {
    var c, s, k := TruthyString(category), TruthyString(size), TruthyString(color);
    if c && s && k && filter == Some(PriceDesc) then Query(category, size, color, Some(Sort(PriceKey, -1)))
    else if c && s && k && filter == Some(PriceAsc) then Query(category, size, color, Some(Sort(PriceKey, 1)))
    else if c && s && k && filter == Some(RatingDesc) then Query(category, size, color, Some(Sort(RatingKey, -1)))
    else if c && s && k && filter == Some(RatingAsc) then Query(category, size, color, Some(Sort(RatingKey, 1)))
    else if c && s && filter == Some(PriceDesc) then Query(category, size, None, Some(Sort(PriceKey, -1)))
    else if c && s && filter == Some(PriceAsc) then Query(category, size, None, Some(Sort(PriceKey, 1)))
    else if c && k && filter == Some(PriceDesc) then Query(category, None, color, Some(Sort(PriceKey, -1)))
    else if c && k && filter == Some(PriceAsc) then Query(category, None, color, Some(Sort(PriceKey, 1)))
    else if c && s && filter == Some(RatingDesc) then Query(category, size, None, Some(Sort(RatingKey, -1)))
    else if c && s && filter == Some(RatingAsc) then Query(category, size, None, Some(Sort(RatingKey, 1)))
    else if c && k && filter == Some(RatingDesc) then Query(category, None, color, Some(Sort(RatingKey, -1)))
    else if c && k && filter == Some(RatingAsc) then Query(category, None, color, Some(Sort(RatingKey, 1)))
    else if c && s && k then Query(category, size, color, None)
    else if c && s then Query(category, size, None, None)
    else if c && k then Query(category, None, color, None)
    else if c && filter == Some(PriceDesc) then Query(category, None, None, Some(Sort(PriceKey, -1)))
    else if c && filter == Some(PriceAsc) then Query(category, None, None, Some(Sort(PriceKey, 1)))
    else if c && filter == Some(RatingDesc) then Query(category, None, None, Some(Sort(RatingKey, -1)))
    else if c && filter == Some(RatingAsc) then Query(category, None, None, Some(Sort(RatingKey, 1)))
    else if c then Query(category, None, None, None)
    else if s then Query(None, size, None, None)
    else if k then Query(None, None, color, None)
    else if filter == Some(PriceDesc) then Query(None, None, None, Some(Sort(PriceKey, -1)))
    else if filter == Some(PriceAsc) then Query(None, None, None, Some(Sort(PriceKey, 1)))
    else if filter == Some(RatingDesc) then Query(None, None, None, Some(Sort(RatingKey, -1)))
    else if filter == Some(RatingAsc) then Query(None, None, None, Some(Sort(RatingKey, 1)))
    else Query(None, None, None, None)
  }

  /** The query the cascade is meant to build: a conjunction of every
      supplied predicate, with the sort applied independently of them. */
  function ResolveCompositional(category: Option<string>, size: Option<string>, color: Option<string>, filter: Option<string>): (r: Query)
    ensures r.category.Some? <==> TruthyString(category)
    ensures r.size.Some? <==> TruthyString(size)
    ensures r.color.Some? <==> TruthyString(color)
    ensures r.category.Some? ==> r.category == category
    ensures r.size.Some? ==> r.size == size
    ensures r.color.Some? ==> r.color == color
    ensures r.sort.Some? <==> ParseFilter(filter).Some?
    ensures r.sort.Some? ==> filter == Some(Label(r.sort.value))
  {
    Query(Present(category), Present(size), Present(color), ParseFilter(filter))
  }

  /** Empty or absent predicates and an unknown `filter` give the bare
      `Product.find()`: no predicate and no sort. */
  lemma EmptyInputsMeanNoQuery(category: Option<string>, size: Option<string>, color: Option<string>, filter: Option<string>)
    requires !TruthyString(category) && !TruthyString(size) && !TruthyString(color)
    requires filter !in {Some(PriceDesc), Some(PriceAsc), Some(RatingDesc), Some(RatingAsc)}
    ensures Resolve(category, size, color, filter) == Query(None, None, None, None)
  {
  }

  /** Every predicate of the resolved query is a supplied field with the
      supplied value, and a sort comes only from one of the four labels. */
  lemma ResolveUsesOnlySuppliedInputs(category: Option<string>, size: Option<string>, color: Option<string>, filter: Option<string>)
    ensures var q := Resolve(category, size, color, filter);
      && (q.category.Some? ==> TruthyString(category) && q.category == category)
      && (q.size.Some? ==> TruthyString(size) && q.size == size)
      && (q.color.Some? ==> TruthyString(color) && q.color == color)
      && (q.sort.Some? ==> filter == Some(Label(q.sort.value)))
  {
  }

  /** A sort with no predicate at all happens only when all three
      predicates are absent. */
  lemma SortAloneOnlyWithoutPredicates(category: Option<string>, size: Option<string>, color: Option<string>, filter: Option<string>)
    ensures var q := Resolve(category, size, color, filter);
      q.sort.Some? && q.category.None? && q.size.None? && q.color.None? <==>
        !TruthyString(category) && !TruthyString(size) && !TruthyString(color) && ParseFilter(filter).Some?
  {
  }

  /** The cascade builds the intended query exactly when it does not have
      to drop anything: when `category` is supplied, or when at most one of
      `size`, `color` and a valid sort label is. */
  lemma CascadeAgreesWhenNothingDropped(category: Option<string>, size: Option<string>, color: Option<string>, filter: Option<string>)
    ensures Resolve(category, size, color, filter) == ResolveCompositional(category, size, color, filter) <==>
      || TruthyString(category)
      || (!TruthyString(size) && !TruthyString(color))
      || (!TruthyString(size) && ParseFilter(filter).None?)
      || (!TruthyString(color) && ParseFilter(filter).None?)
  {
  }

  /** The quirk as written: the products page sends `size`, `color` and
      `filter` but never `category`; with all three supplied, only `size`
      survives, so a product of another colour is listed and no sort is
      applied. */
  lemma ResolveDropsColorAndSort()
    ensures var q := Resolve(None, Some("M"), Some("Red"), Some(PriceAsc));
      && q == Query(None, Some("M"), None, None)
      && q != ResolveCompositional(None, Some("M"), Some("Red"), Some(PriceAsc))
  {
  }

  /** A product satisfies every equality predicate of the query. */
  predicate Matches(q: Query, p: Product)
  {
    && (q.category.Some? ==> p.category == q.category.value)
    && (q.size.Some? ==> p.size == q.size.value)
    && (q.color.Some? ==> p.color == q.color.value)
  }

  /** A Mongo filter object is the conjunction of its fields: a product
      matches the query exactly when it matches each field on its own, the
      empty filter matches every product, and the sort filters nothing. */
  lemma MatchesIsConjunction(q: Query, p: Product)
    ensures Matches(q, p) <==>
      && Matches(Query(q.category, None, None, None), p)
      && Matches(Query(None, q.size, None, None), p)
      && Matches(Query(None, None, q.color, None), p)
    ensures Matches(Query(None, None, None, q.sort), p)
    ensures Matches(q, p) == Matches(q.(sort := None), p)
  {
  }

  /** `Product.find(filter)` without a sort: the matching products in the
      store's natural order. */
  function Select(q: Query, store: seq<Product>): (r: seq<Product>)
    ensures forall p :: p in r <==> p in store && Matches(q, p)
    ensures multiset(r) <= multiset(store)
  {
    if |store| == 0 then []
    else
      assert store == [store[0]] + store[1..];
      (if Matches(q, store[0]) then [store[0]] else []) + Select(q, store[1..])
  }

  /** `find` keeps every copy of a matching document and no copy of any
      other. */
  lemma {:induction false} SelectCounts(q: Query, store: seq<Product>, p: Product)
    ensures multiset(Select(q, store))[p] == if Matches(q, p) then multiset(store)[p] else 0
  {
    if |store| > 0 {
      var head := if Matches(q, store[0]) then [store[0]] else [];
      assert store == [store[0]] + store[1..];
      assert Select(q, store) == head + Select(q, store[1..]);
      assert multiset(store) == multiset{store[0]} + multiset(store[1..]);
      SelectCounts(q, store[1..], p);
    }
  }

  /** Selection works document by document: a single document is kept
      exactly when it matches, and selecting from two stretches of the
      store one after the other is selecting from their concatenation, so
      the matches keep the store's order. */
  lemma {:induction false} SelectAppend(q: Query, a: seq<Product>, b: seq<Product>)
    ensures |a| == 1 ==> Select(q, a) == if Matches(q, a[0]) then a else []
    ensures Select(q, a + b) == Select(q, a) + Select(q, b)
  {
    if |a| > 0 {
      var head := if Matches(q, a[0]) then [a[0]] else [];
      assert (a + b)[1..] == a[1..] + b;
      assert (a + b)[0] == a[0];
      assert Select(q, a + b) == head + Select(q, a[1..] + b);
      assert Select(q, a) == head + Select(q, a[1..]);
      SelectAppend(q, a[1..], b);
      ConcatAssoc(head, Select(q, a[1..]), Select(q, b));
    } else {
      assert a + b == b;
    }
  }

  /** The value `.sort({key: ...})` compares. */
  function KeyOf(p: Product, key: SortKey): real
  {
    match key
    case PriceKey => p.price
    case RatingKey => p.rating
  }

  /** `a` may come before `b` in a listing sorted by `s`. */
  predicate InOrder(a: Product, b: Product, s: Sort)
  {
    if s.direction == 1 then KeyOf(a, s.key) <= KeyOf(b, s.key) else KeyOf(a, s.key) >= KeyOf(b, s.key)
  }

  predicate SortedBy(ps: seq<Product>, s: Sort)
  {
    forall i, j :: 0 <= i < j < |ps| ==> InOrder(ps[i], ps[j], s)
  }

  /** Inserts `p` into a sorted listing after every product it may not precede. */
  function Insert(p: Product, ps: seq<Product>, s: Sort): (r: seq<Product>)
    requires SortedBy(ps, s)
    ensures SortedBy(r, s)
    ensures multiset(r) == multiset(ps) + multiset{p}
  {
    if |ps| == 0 then [p]
    else if InOrder(p, ps[0], s) then
      assert forall j :: 0 <= j < |ps| ==> InOrder(p, ps[j], s);
      [p] + ps
    else
      var rest := Insert(p, ps[1..], s);
      assert ps == [ps[0]] + ps[1..];
      HeadPrecedesRest(p, ps, rest, s);
      [ps[0]] + rest
  }

  /** The head of a sorted listing, put in front of its sorted tail with
      `p` inserted, keeps the listing sorted when `p` may not precede it. */
  lemma HeadPrecedesRest(p: Product, ps: seq<Product>, rest: seq<Product>, s: Sort)
    requires |ps| > 0 && SortedBy(ps, s) && !InOrder(p, ps[0], s)
    requires multiset(rest) == multiset(ps[1..]) + multiset{p}
    requires SortedBy(rest, s)
    ensures SortedBy([ps[0]] + rest, s)
  {
    forall j | 0 <= j < |rest| ensures InOrder(ps[0], rest[j], s) {
      assert rest[j] in multiset(ps[1..]) + multiset{p};
      if rest[j] != p {
        assert rest[j] in multiset(ps[1..]);
        var m :| 0 <= m < |ps[1..]| && ps[1..][m] == rest[j];
        assert ps[1..][m] == ps[m + 1];
      }
    }
    var r := [ps[0]] + rest;
    forall i, j | 0 <= i < j < |r| ensures InOrder(r[i], r[j], s) {
      assert r[j] == rest[j - 1];
      if i > 0 {
        assert r[i] == rest[i - 1];
      }
    }
  }

  /** A stable insertion sort: one of the orders `.sort` may return. */
  function SortProducts(ps: seq<Product>, s: Sort): (r: seq<Product>)
    ensures SortedBy(r, s)
    ensures multiset(r) == multiset(ps)
  {
    if |ps| == 0 then []
    else
      assert ps == [ps[0]] + ps[1..];
      Insert(ps[0], SortProducts(ps[1..], s), s)
  }

  /** What a query returns: the matching products, in natural order when
      there is no sort and ordered by the sort key otherwise. Products that
      tie on the key keep their natural order here; the store does not
      promise any particular order among them. */
  function Run(q: Query, store: seq<Product>): (r: seq<Product>)
    ensures forall p :: p in r <==> p in store && Matches(q, p)
    ensures multiset(r) == multiset(Select(q, store))
    ensures q.sort.None? ==> r == Select(q, store)
    ensures q.sort.Some? ==> SortedBy(r, q.sort.value)
  {
    match q.sort
    case None => Select(q, store)
    case Some(s) =>
      var r := SortProducts(Select(q, store), s);
      SameMembers(r, Select(q, store));
      r
  }

  /** Two listings with the same multiset hold the same products. */
  lemma SameMembers(a: seq<Product>, b: seq<Product>)
    requires multiset(a) == multiset(b)
    ensures forall p :: p in a <==> p in b
  {
    forall p ensures p in a <==> p in b {
      assert p in a <==> p in multiset(a);
      assert p in b <==> p in multiset(b);
    }
  }

  /** `getAllProducts` as written: the cascade's query run against the store. */
  function GetAllProducts(store: seq<Product>, category: Option<string>, size: Option<string>, color: Option<string>, filter: Option<string>): (r: seq<Product>)
    ensures TruthyString(category) ==>
      forall p :: p in r <==> (p in store && p.category == category.value
        && (TruthyString(size) ==> p.size == size.value) && (TruthyString(color) ==> p.color == color.value))
    ensures !TruthyString(category) && TruthyString(size) ==>
      r == Select(Query(None, size, None, None), store)
    ensures !TruthyString(category) && !TruthyString(size) && TruthyString(color) ==>
      r == Select(Query(None, None, color, None), store)
    ensures !TruthyString(category) && !TruthyString(size) && !TruthyString(color) && ParseFilter(filter).None? ==>
      r == store
    ensures ParseFilter(filter).Some? && (TruthyString(category) || (!TruthyString(size) && !TruthyString(color))) ==>
      SortedBy(r, ParseFilter(filter).value)
    ensures !TruthyString(category) && !TruthyString(size) && !TruthyString(color) ==>
      multiset(r) == multiset(store)
    ensures multiset(r) == multiset(Select(Resolve(category, size, color, filter), store))
    ensures Resolve(category, size, color, filter).sort.None? ==> r == Select(Resolve(category, size, color, filter), store)
  {
    var q := Resolve(category, size, color, filter);
    if q.category.None? && q.size.None? && q.color.None? then
      SelectAll(q, store);
      Run(q, store)
    else
      Run(q, store)
  }

  /** With no predicate, the selection is the whole store in order. */
  lemma {:induction false} SelectAll(q: Query, store: seq<Product>)
    requires q.category.None? && q.size.None? && q.color.None?
    ensures Select(q, store) == store
  {
    if |store| > 0 {
      SelectAll(q, store[1..]);
      assert store == [store[0]] + store[1..];
    }
  }

  /** The listing the cascade is meant to produce: exactly the products
      matching every supplied predicate, sorted whenever `filter` is a
      valid label and in natural order otherwise. */
  function ListProducts(store: seq<Product>, category: Option<string>, size: Option<string>, color: Option<string>, filter: Option<string>): (r: seq<Product>)
    ensures forall p :: p in r <==> (p in store
      && (TruthyString(category) ==> p.category == category.value)
      && (TruthyString(size) ==> p.size == size.value)
      && (TruthyString(color) ==> p.color == color.value))
    ensures ParseFilter(filter).Some? ==> SortedBy(r, ParseFilter(filter).value)
    ensures multiset(r) == multiset(Select(ResolveCompositional(category, size, color, filter), store))
    ensures ParseFilter(filter).None? ==> r == Select(ResolveCompositional(category, size, color, filter), store)
  {
    Run(ResolveCompositional(category, size, color, filter), store)
  }

  /** The quirk on a concrete store: asking the products page for red,
      size M, cheapest first lists a blue size-M product, which the
      intended listing excludes. */
  lemma RedFilterListsBlueProduct(blue: Product)
    requires blue.size == "M" && blue.color == "Blue"
    ensures blue in GetAllProducts([blue], None, Some("M"), Some("Red"), Some(PriceAsc))
    ensures blue !in ListProducts([blue], None, Some("M"), Some("Red"), Some(PriceAsc))
  {
    var q := Resolve(None, Some("M"), Some("Red"), Some(PriceAsc));
    assert q == Query(None, Some("M"), None, None);
    assert Matches(q, blue);
    assert "Blue" != "Red";
  }
}

=== FILE: review_handlers.dfy ===
/**
  `createReview`, `updateReview` and `deleteReview`: guarded mutations of
  one product's `reviews` that recompute the derived `rating` and
  `numReviews`, each taken as one sequential step on the store.
 */
module ReviewHandlers {
  import opened Js
  import opened Catalog
  import opened ProductCreation

  datatype Outcome =
    | Saved(review: Review, rating: real, numReviews: int)  // 201 {review, rating, numReviews}
    | Removed                                               // 200 "Deleted user's review"
    | NotFound                                              // 404 'Product not found'
    | Conflict                                              // 409 already / not yet reviewed
    | BadRequest                                            // 400 'Rating and review are required'

  function Status(o: Outcome): int
  {
    match o
    case Saved(_, _, _) => 201
    case Removed => 200
    case NotFound => 404
    case Conflict => 409
    case BadRequest => 400
  }

  datatype Reply = Reply(outcome: Outcome, store: seq<Product>)

  /** `!userRating || !userReview` is false: both fields are truthy. */
  predicate Supplied(userRating: Option<real>, userReview: Option<string>)
  {
    TruthyNumber(userRating) && TruthyString(userReview)
  }

  /** `store'` differs from `store` only in the review fields of product `i`. */
  predicate ChangesOnly(store: seq<Product>, store': seq<Product>, i: nat)
  {
    && |store'| == |store|
    && i < |store|
    && SameListing(store[i], store'[i])
    && forall j :: 0 <= j < |store| && j != i ==> store'[j] == store[j]
  }

  /** The review object the handlers build from the requester and the body. */
  function NewReview(user: User, userRating: Option<real>, userReview: Option<string>): (r: Review)
    requires Supplied(userRating, userReview)
    ensures r.userName == user.firstName + " " + user.lastName && r.userId == user.id
    ensures Some(r.userRating) == userRating && r.userRating != 0.0
    ensures Some(r.userReview) == userReview && r.userReview != ""
  {
    Review(DisplayName(user), user.id, userRating.value, userReview.value)
  }

  /** The requester has a review on the product at position `i`. */
  predicate Reviewed(store: seq<Product>, i: nat, uid: string)
  {
    i < |store| && HasReviewBy(store[i].reviews, uid)
  }

  /** `createReview`: 404 for a missing product, then 409 when the
      requester already reviewed it, then 400 for a falsy rating or text;
      otherwise the review is appended and the aggregates recomputed. */
  function CreateReview(store: seq<Product>, productId: string, user: User, userRating: Option<real>, userReview: Option<string>): (r: Reply)
    ensures r.outcome.NotFound? <==> FindById(store, productId).None?
    ensures r.outcome.Conflict? <==>
      FindById(store, productId).Some? && Reviewed(store, FindById(store, productId).value, user.id)
    ensures r.outcome.BadRequest? <==>
      FindById(store, productId).Some? && !Reviewed(store, FindById(store, productId).value, user.id)
        && !Supplied(userRating, userReview)
    ensures !r.outcome.Removed?
    ensures !r.outcome.Saved? ==> r.store == store
    ensures r.outcome.Saved? ==>
      && FindById(store, productId).Some?
      && Supplied(userRating, userReview)
      && var i := FindById(store, productId).value;
      && ChangesOnly(store, r.store, i)
      && r.outcome.review == NewReview(user, userRating, userReview)
      && r.store[i].reviews == store[i].reviews + [r.outcome.review]
      && r.store[i].numReviews == |r.store[i].reviews|
      && r.store[i].rating == Mean(r.store[i].reviews)
      && r.outcome.rating == r.store[i].rating
      && r.outcome.numReviews == r.store[i].numReviews
  {
    match FindById(store, productId)
    case None => Reply(NotFound, store)
    case Some(i) =>
      var p := store[i];
      if FindReview(p.reviews, user.id).Some? then Reply(Conflict, store)
      else if !Supplied(userRating, userReview) then Reply(BadRequest, store)
      else
        var review := NewReview(user, userRating, userReview);
        var reviews := p.reviews + [review];
        var saved := p.(reviews := reviews, rating := Sum(reviews) / (|reviews| as real), numReviews := |reviews|);
        Reply(Saved(review, saved.rating, saved.numReviews), store[i := saved])
  }

  /** `updateReview`: 404, then 409 when the requester has no review, then
      400; otherwise every review of the requester is pulled, the new one
      appended and `rating` recomputed. `numReviews` is not reassigned. */
  function UpdateReview(store: seq<Product>, productId: string, user: User, userRating: Option<real>, userReview: Option<string>): (r: Reply)
    ensures r.outcome.NotFound? <==> FindById(store, productId).None?
    ensures r.outcome.Conflict? <==>
      FindById(store, productId).Some? && !Reviewed(store, FindById(store, productId).value, user.id)
    ensures r.outcome.BadRequest? <==>
      FindById(store, productId).Some? && Reviewed(store, FindById(store, productId).value, user.id)
        && !Supplied(userRating, userReview)
    ensures !r.outcome.Removed?
    ensures !r.outcome.Saved? ==> r.store == store
    ensures r.outcome.Saved? ==>
      && FindById(store, productId).Some?
      && Supplied(userRating, userReview)
      && var i := FindById(store, productId).value;
      && ChangesOnly(store, r.store, i)
      && r.outcome.review == NewReview(user, userRating, userReview)
      && r.store[i].reviews == Pull(store[i].reviews, user.id) + [r.outcome.review]
      && r.store[i].numReviews == store[i].numReviews
      && r.store[i].rating == Mean(r.store[i].reviews)
      && r.outcome.rating == r.store[i].rating
      && r.outcome.numReviews == r.store[i].numReviews
  {
    match FindById(store, productId)
    case None => Reply(NotFound, store)
    case Some(i) =>
      var p := store[i];
      if FindReview(p.reviews, user.id).None? then Reply(Conflict, store)
      else if !Supplied(userRating, userReview) then Reply(BadRequest, store)
      else
        var review := NewReview(user, userRating, userReview);
        var reviews := Pull(p.reviews, user.id) + [review];
        var saved := p.(reviews := reviews, rating := Sum(reviews) / (|reviews| as real));
        Reply(Saved(review, saved.rating, saved.numReviews), store[i := saved])
  }

  /** `deleteReview`: 404, then 409 when the requester has no review;
      otherwise every review of the requester is pulled, `rating` becomes
      the mean of what remains (`NaN || 0` is 0 when nothing remains) and
      `numReviews` the remaining count. */
  function DeleteReview(store: seq<Product>, productId: string, user: User): (r: Reply)
    ensures r.outcome.NotFound? <==> FindById(store, productId).None?
    ensures r.outcome.Conflict? <==>
      FindById(store, productId).Some? && !Reviewed(store, FindById(store, productId).value, user.id)
    ensures r.outcome.NotFound? || r.outcome.Conflict? || r.outcome.Removed?
    ensures !r.outcome.Removed? ==> r.store == store
    ensures r.outcome.Removed? ==>
      && FindById(store, productId).Some?
      && var i := FindById(store, productId).value;
      && ChangesOnly(store, r.store, i)
      && r.store[i].reviews == Pull(store[i].reviews, user.id)
      && r.store[i].numReviews == |r.store[i].reviews|
      && r.store[i].rating == Mean(r.store[i].reviews)
      && (r.store[i].reviews == [] ==> r.store[i].rating == 0.0)
  {
    match FindById(store, productId)
    case None => Reply(NotFound, store)
    case Some(i) =>
      var p := store[i];
      if FindReview(p.reviews, user.id).None? then Reply(Conflict, store)
      else
        var kept := Pull(p.reviews, user.id);
        var rating := if |kept| == 0 then 0.0 else Sum(kept) / (|kept| as real);
        Reply(Removed, store[i := p.(reviews := kept, rating := rating, numReviews := |kept|)])
  }

  /** Under unique authors, pulling a requester who has a review removes
      exactly one entry. */
  lemma PullOfAuthorRemovesOne(rs: seq<Review>, uid: string)
    requires UniqueAuthors(rs) && HasReviewBy(rs, uid)
    ensures |Pull(rs, uid)| == |rs| - 1
  {
    var k :| 0 <= k < |rs| && rs[k].userId == uid;
    PullRemovesOne(rs, uid, k);
  }

  /** A store whose product `i` changed into a valid product stays valid. */
  lemma ReplacingKeepsAllValid(store: seq<Product>, store': seq<Product>, i: nat)
    requires AllValid(store) && ChangesOnly(store, store', i) && Valid(store'[i])
    ensures AllValid(store')
  {
  }

  /** Appending a review by someone who has none keeps authors unique. */
  lemma AppendNewAuthorKeepsUnique(rs: seq<Review>, x: Review)
    requires UniqueAuthors(rs) && !HasReviewBy(rs, x.userId)
    ensures UniqueAuthors(rs + [x])
  {
  }

  /** `createReview` keeps every product valid. */
  lemma CreatePreservesValid(store: seq<Product>, productId: string, user: User, userRating: Option<real>, userReview: Option<string>)
    requires AllValid(store)
    ensures AllValid(CreateReview(store, productId, user, userRating, userReview).store)
  {
    var r := CreateReview(store, productId, user, userRating, userReview);
    if r.outcome.Saved? {
      var i := FindById(store, productId).value;
      AppendNewAuthorKeepsUnique(store[i].reviews, r.outcome.review);
      ReplacingKeepsAllValid(store, r.store, i);
    }
  }

  /** `updateReview` keeps every product valid. The count it never
      reassigns stays right only because the requester had exactly one
      review to pull. */
  lemma UpdatePreservesValid(store: seq<Product>, productId: string, user: User, userRating: Option<real>, userReview: Option<string>)
    requires AllValid(store)
    ensures AllValid(UpdateReview(store, productId, user, userRating, userReview).store)
  {
    var r := UpdateReview(store, productId, user, userRating, userReview);
    if r.outcome.Saved? {
      var i := FindById(store, productId).value;
      var kept := Pull(store[i].reviews, user.id);
      PullOfAuthorRemovesOne(store[i].reviews, user.id);
      PullKeepsUnique(store[i].reviews, user.id);
      AppendNewAuthorKeepsUnique(kept, r.outcome.review);
      ReplacingKeepsAllValid(store, r.store, i);
    }
  }

  /** `deleteReview` keeps every product valid. */
  lemma DeletePreservesValid(store: seq<Product>, productId: string, user: User)
    requires AllValid(store)
    ensures AllValid(DeleteReview(store, productId, user).store)
  {
    var r := DeleteReview(store, productId, user);
    if r.outcome.Removed? {
      var i := FindById(store, productId).value;
      PullKeepsUnique(store[i].reviews, user.id);
      ReplacingKeepsAllValid(store, r.store, i);
    }
  }

  /** Without unique authors the stale `numReviews` of `updateReview` shows:
      a product whose two reviews are both by "u1" keeps `numReviews == 2`
      after u1's update leaves one review. */
  lemma UpdateCountNeedsUniqueness()
    ensures var r1 := Review("A B", "u1", 4.0, "good");
      var r2 := Review("A B", "u1", 2.0, "poor");
      var p := Product("p1", "Tee", "cotton", 10.0, "tee.png", "Shirts", "M", "Red", 3, 3.0, 2, [r1, r2]);
      var r := UpdateReview([p], "p1", User("u1", "A", "B"), Some(5.0), Some("great"));
      && p.numReviews == |p.reviews| && p.rating == Mean(p.reviews)
      && r.outcome.Saved?
      && |r.store[0].reviews| == 1
      && r.store[0].numReviews == 2
  {
    var r1 := Review("A B", "u1", 4.0, "good");
    var r2 := Review("A B", "u1", 2.0, "poor");
    var two := [r1, r2];
    assert two[..1] == [r1];
    assert [r1][..0] == [];
    assert Sum([r1]) == 4.0;
    assert Sum(two) == Sum([r1]) + 2.0;
    assert Pull(two, "u1") == [];
  }

  /** On a product whose count was right, `updateReview` leaves
      `numReviews == |reviews|` exactly when the requester had one review:
      with two or more, the pull removes them all and the count goes stale. */
  lemma UpdateCountRightIffOneReview(store: seq<Product>, i: nat, productId: string, user: User, userRating: Option<real>, userReview: Option<string>, r: Reply)
    requires FindById(store, productId) == Some(i)
    requires store[i].numReviews == |store[i].reviews|
    requires r == UpdateReview(store, productId, user, userRating, userReview)
    ensures r.outcome.Saved? ==>
      (r.store[i].numReviews == |r.store[i].reviews| <==> CountBy(store[i].reviews, user.id) == 1)
  {
    PullCount(store[i].reviews, user.id);
  }

  /** A review request as the router dispatches it. */
  datatype Request =
    | CreateRequest(productId: string, user: User, userRating: Option<real>, userReview: Option<string>)
    | UpdateRequest(productId: string, user: User, userRating: Option<real>, userReview: Option<string>)
    | DeleteRequest(productId: string, user: User)

  function Handle(store: seq<Product>, req: Request): Reply
  {
    match req
    case CreateRequest(id, u, rating, text) => CreateReview(store, id, u, rating, text)
    case UpdateRequest(id, u, rating, text) => UpdateReview(store, id, u, rating, text)
    case DeleteRequest(id, u) => DeleteReview(store, id, u)
  }

  /** The store after handling the requests one after another. */
  function Replay(store: seq<Product>, reqs: seq<Request>): seq<Product>
    decreases |reqs|
  {
    if |reqs| == 0 then store else Replay(Handle(store, reqs[0]).store, reqs[1..])
  }

  /** Any sequence of review requests, successful or refused, keeps
      `numReviews == |reviews|`, `rating == mean` and one review per user
      on every product. */
  lemma {:induction false} ReplayPreservesValid(store: seq<Product>, reqs: seq<Request>)
    requires AllValid(store)
    ensures AllValid(Replay(store, reqs))
    decreases |reqs|
  {
    if |reqs| > 0 {
      match reqs[0] {
        case CreateRequest(id, u, rating, text) => CreatePreservesValid(store, id, u, rating, text);
        case UpdateRequest(id, u, rating, text) => UpdatePreservesValid(store, id, u, rating, text);
        case DeleteRequest(id, u) => DeletePreservesValid(store, id, u);
      }
      ReplayPreservesValid(Handle(store, reqs[0]).store, reqs[1..]);
    }
  }

  /** A product starts valid, so every product created and then reviewed
      any number of times stays valid. */
  lemma CreatedProductStaysValid(store: seq<Product>, form: ProductForm, newId: string, price: real,
                                 countInStock: int, image: string, reqs: seq<Request>)
    requires AllValid(store)
    requires FindById(store, newId).None?
    ensures AllValid(Replay(CreateProduct(store, form, newId, price, countInStock, image).store, reqs))
  {
    var c := CreateProduct(store, form, newId, price, countInStock, image);
    assert AllValid(c.store) by {
      if c.outcome.Created? {
        forall j | 0 <= j < |c.store| ensures Valid(c.store[j]) {
          if j < |store| {
            assert c.store[j] == store[j];
          }
        }
      }
    }
    ReplayPreservesValid(c.store, reqs);
  }

  /** A sample listed product carrying the given review fields. */
  function Tee(reviews: seq<Review>, rating: real, numReviews: int): Product
  {
    Product("p1", "Tee", "cotton", 10.0, "tee.png", "Shirts", "M", "Red", 3, rating, numReviews, reviews)
  }

  const U1 := User("u1", "Ann", "Lee")
  const U2 := User("u2", "Bo", "Kim")
  const U3 := User("u3", "Cy", "Ode")

  /** A first review of 4 gives a rating of 4 over one review. */
  lemma ScenarioFirstReview()
    ensures var r := CreateReview([Tee([], 0.0, 0)], "p1", U1, Some(4.0), Some("nice"));
      && Status(r.outcome) == 201
      && r.outcome.rating == 4.0 && r.outcome.numReviews == 1
      && r.outcome.review.userName == "Ann Lee"
  {
    var x := Review("Ann Lee", "u1", 4.0, "nice");
    SumAppend([], x);
    assert [] + [x] == [x];
  }

  /** Reviews 4 (u1) and 2 (u2); u1 changes to 5: rating 3.5 over two
      reviews, u1's review now last. */
  lemma ScenarioUpdate()
    ensures var a := Review("Ann Lee", "u1", 4.0, "ok");
      var b := Review("Bo Kim", "u2", 2.0, "meh");
      var r := UpdateReview([Tee([a, b], 3.0, 2)], "p1", U1, Some(5.0), Some("great"));
      && Status(r.outcome) == 201
      && r.store[0].reviews == [b, Review("Ann Lee", "u1", 5.0, "great")]
      && r.outcome.rating == 3.5 && r.outcome.numReviews == 2
  {
    var a := Review("Ann Lee", "u1", 4.0, "ok");
    var b := Review("Bo Kim", "u2", 2.0, "meh");
    var c := Review("Ann Lee", "u1", 5.0, "great");
    assert Pull([a, b], "u1") == [b] by {
      assert [a, b][1..] == [b];
      assert [b][1..] == [];
      assert Pull([b], "u1") == [b] + Pull([], "u1");
    }
    SumAppend([], b);
    SumAppend([b], c);
    assert [] + [b] == [b] && [b] + [c] == [b, c];
    assert Mean([b, c]) == 3.5;
    var store := [Tee([a, b], 3.0, 2)];
    assert FindById(store, "p1") == Some(0);
    assert Reviewed(store, 0, "u1") by {
      assert store[0].reviews[0].userId == "u1";
    }
    assert NewReview(U1, Some(5.0), Some("great")) == c by {
      assert DisplayName(U1) == "Ann Lee";
    }
  }

  /** Continuing: u2 deletes their review, leaving u1's 5 as the only one. */
  lemma ScenarioDelete()
    ensures var b := Review("Bo Kim", "u2", 2.0, "meh");
      var c := Review("Ann Lee", "u1", 5.0, "great");
      var r := DeleteReview([Tee([b, c], 3.5, 2)], "p1", U2);
      && Status(r.outcome) == 200
      && r.store[0].rating == 5.0 && r.store[0].numReviews == 1
  {
    var b := Review("Bo Kim", "u2", 2.0, "meh");
    var c := Review("Ann Lee", "u1", 5.0, "great");
    assert Pull([b, c], "u2") == [c] by {
      assert [b, c][1..] == [c];
      assert [c][1..] == [];
      assert Pull([c], "u2") == [c] + Pull([], "u2");
    }
    assert [c][..0] == [];
  }

  /** Deleting a review that was never written is a conflict, not a no-op. */
  lemma ScenarioDeleteWithoutReview()
    ensures var r := DeleteReview([Tee([], 0.0, 0)], "p1", U3);
      Status(r.outcome) == 409 && r.store == [Tee([], 0.0, 0)]
  {
  }

  /** A second review by the same user is a conflict and changes nothing,
      even when the rating is missing as well: 409 is checked before 400. */
  lemma ScenarioDuplicateReview()
    ensures var a := Review("Ann Lee", "u1", 4.0, "ok");
      var store := [Tee([a], 4.0, 1)];
      var r := CreateReview(store, "p1", U1, None, Some("again"));
      Status(r.outcome) == 409 && r.store == store
  {
    var a := Review("Ann Lee", "u1", 4.0, "ok");
    assert [a][0].userId == "u1";
  }
}
